=== FILE: README.md ===
# PSAPIClient core, modelled in Dafny

PSAPIClient is a Swift HTTP client built on Alamofire and Combine. This
project models the three parts of it that make decisions:

- **The access-token interceptor** (`AccessTokenInterceptor`), in
  `access_token_interceptor.dfy`, module `TokenInterceptor`. `adapt` attaches
  `Authorization: Bearer <token>` (section 2.1 of RFC 6750). `retry` handles
  failed requests. On a 401 (section 15.5.2 of RFC 9110) for a path that may be
  refreshed, it queues the request's completion and launches at most one
  `getNewToken`. When that refresh ends, every queued completion is released in
  order: with `.retry` after storing the new tokens, or with the refresh error
  after logging out. The interceptor is then idle again.
  - The interceptor is a class with the source's fields: the provider's token
    pair, `isRefreshing` and the `requestsToRetry` queue. Three logs stand for
    the host's collaborators: `refreshCalls` records the refresh token passed to
    each `getNewToken` launch, `logouts` counts `logout()` calls, and
    `deliveries` lists every completion call in order. Each completion call is
    recorded as request id, result, the tokens held at that moment and the
    number of `logout()` calls made so far, so the log shows the order of
    token writes and logouts relative to each completion.
  - Each `queue.sync` block and each sink callback is one atomic method. Every
    mutating method is tied to a step function on the value `RefreshState`
    (`State() == RetryStep(old(State()), …)`). The lemmas about several calls
    are proved over those step functions.
  - The invariant `Inv` has three parts:
    - requests are queued only while refreshing;
    - `released + requestsToRetry == enqueued`, over ghost histories of queued
      and released requests, so every queued completion is released exactly
      once, in FIFO order;
    - exactly one `getNewToken` was launched since the interceptor was last
      idle while it is refreshing, and none while it is idle.
- **Response classification** (`NetworkError.processResponse`, both
  overloads), in `network_error.dfy`, module `NetworkErrors`. It is a pure
  function from Alamofire's result, HTTP status and body to the payload or a
  `NetworkError`. JSON decoding of the error body is a function parameter.
- **Request options** (`API.swift`), in `api.dfy`, module `APIClient`. This
  covers the `HTTPMethod` and `ParametersEncoding` mappings, the `mapError`
  rule, the `init` handling of common headers, and the choice of interceptor
  in both `request` overloads. `wrappers.dfy` holds `Option` and `Result`.

Behaviour of the code that a reader might not expect:

- An eligible 401 with no refresh token does not fail the current request
  with `Unauthorized`. It calls `doNotRetry` with
  `NSError(domain: "Authorization", code: 600)`. This logs out once, fails
  the requests already queued, and returns to idle. The current request's
  completion is never called and the request is never queued
  (`MissingRefreshTokenLogsOut`).
- A refresh failure logs out twice: once in `doNotRetry` and once more in
  the sink (`RefreshFailureFailsAll`).
- A 401 on a `doNotRefreshPaths` path fails with the request's original
  error, not with a dedicated `Unauthorized` error (`IneligibleFailsAtOnce`).
- A refresh response without a refresh token stores nil, since
  `updateTokens` assigns both tokens as they come. The next eligible 401
  then takes the missing-token exit: it logs out instead of refreshing
  (`NilRefreshTokenLogsOutNext`).
- Only a missing (nil) refresh token counts as absent. An empty string is a
  token and launches a refresh.
- A decoded server message never surfaces. The `catch` in `processResponse`
  rewraps everything thrown in its `do` block, including `message(msg)`, as
  `unknown`. So every failure with a status other than 401 and
  `notConnectedToInternet` ends as `unknown` (`ServerMessageNeverSurfaces`).

## Model

| member | source | states |
|---|---|---|
| `TokenInterceptor.ContainsIffOccurs` | Sources/PSAPIClient/AccessTokenInterceptor.swift:104 | the recursive substring test behind `contains` holds exactly when the sub-path occurs at some offset of the URL string |
| `TokenInterceptor.PathContains` | Sources/PSAPIClient/AccessTokenInterceptor.swift:102-109 | the search loop returns true iff the request has a URL and some sub-path occurs in it; false for an empty list or a missing URL |
| `TokenInterceptor.Authorize` | Sources/PSAPIClient/AccessTokenInterceptor.swift:43-50 | with no access token or on an auth path the request is returned unchanged; otherwise the header keys gain exactly `Authorization`, its value is `"Bearer " + token`, and URL, method, body and other headers are kept |
| `TokenInterceptor.AccessTokenInterceptor.Adapt` | Sources/PSAPIClient/AccessTokenInterceptor.swift:42-51 | `adapt` never fails and delivers the request as `Authorize` rewrites it with the provider's current access token |
| `TokenInterceptor.AccessTokenInterceptor.constructor` | Sources/PSAPIClient/AccessTokenInterceptor.swift:29-39 | a new interceptor is idle, with an empty queue and empty logs, and satisfies the invariant |
| `TokenInterceptor.Served` | Sources/PSAPIClient/AccessTokenInterceptor.swift:85 | releasing a queue produces one completion call per queued request, in queue order, all with the same result, tokens and logout count |
| `TokenInterceptor.RetryStep` | Sources/PSAPIClient/AccessTokenInterceptor.swift:53-79 | `retry` preserves the invariant, never changes the tokens, and launches a refresh (with the current refresh token) only when none was running |
| `TokenInterceptor.AccessTokenInterceptor.Retry` | Sources/PSAPIClient/AccessTokenInterceptor.swift:53-79 | the method keeps the invariant and its new state is `RetryStep` of the old state |
| `TokenInterceptor.IneligibleFailsAtOnce` | Sources/PSAPIClient/AccessTokenInterceptor.swift:54-57 | no response, a status other than 401, or a `doNotRefreshPaths` match: the completion gets `.doNotRetryWithError(original error)` at once, with queue, `isRefreshing`, refresh launches and logouts untouched |
| `TokenInterceptor.MissingRefreshTokenLogsOut` | Sources/PSAPIClient/AccessTokenInterceptor.swift:59-61 | an eligible 401 without refresh token logs out once, then fails the already-queued requests in order with the Authorization/600 error, empties the queue, resets `isRefreshing`, launches no refresh, and neither queues nor completes the current request |
| `TokenInterceptor.EligibleEnqueues` | Sources/PSAPIClient/AccessTokenInterceptor.swift:63-77 | an eligible 401 with a refresh token appends the request to the queue and sets `isRefreshing`; a refresh is launched exactly when `isRefreshing` was false |
| `TokenInterceptor.UpdateTokensStep` | Sources/PSAPIClient/AccessTokenInterceptor.swift:82-87 | a refresh response overwrites both tokens (possibly with nil), gives every queued request `.retry` in order with the new tokens already stored, then leaves the queue empty and the interceptor idle; the invariant is preserved |
| `TokenInterceptor.AccessTokenInterceptor.UpdateTokens` | Sources/PSAPIClient/AccessTokenInterceptor.swift:82-87 | the method keeps the invariant and its new state is `UpdateTokensStep` of the old state |
| `TokenInterceptor.DoNotRetryStep` | Sources/PSAPIClient/AccessTokenInterceptor.swift:89-98 | logs out once and only then fails every queued request in order with the given error (each delivery sees the new logout count), keeps the tokens, leaves the queue empty and the interceptor idle; the invariant is preserved |
| `TokenInterceptor.AccessTokenInterceptor.DoNotRetry` | Sources/PSAPIClient/AccessTokenInterceptor.swift:89-93 | the method keeps the invariant and its new state is `DoNotRetryStep` of the old state |
| `TokenInterceptor.AccessTokenInterceptor.OnRefreshDone` | Sources/PSAPIClient/AccessTokenInterceptor.swift:95-98 | the queue is emptied and `isRefreshing` cleared, nothing else changes |
| `TokenInterceptor.AccessTokenInterceptor.CallQueued` | Sources/PSAPIClient/AccessTokenInterceptor.swift:85 | the `forEach` loop appends one completion call per queued request, in queue order, and records them as released |
| `TokenInterceptor.ReceiveCompletionStep` | Sources/PSAPIClient/AccessTokenInterceptor.swift:69-73 | the sink's completion handler preserves the invariant; `finished` changes nothing |
| `TokenInterceptor.AccessTokenInterceptor.ReceiveCompletion` | Sources/PSAPIClient/AccessTokenInterceptor.swift:69-73 | the method keeps the invariant and its new state is `ReceiveCompletionStep` of the old state |
| `TokenInterceptor.RefreshFailureFailsAll` | Sources/PSAPIClient/AccessTokenInterceptor.swift:70-73 | a failed refresh gives every queued request `.doNotRetryWithError(refresh error)` once, in order, after the first `logout` and before the second; keeps the tokens, logs out twice, empties the queue and resets `isRefreshing` |
| `TokenInterceptor.ConcurrentUnauthorized` | Sources/PSAPIClient/AccessTokenInterceptor.swift:63-78 | with a refresh token held, any number of 401s from distinct requests, each on its own non-exempt path and with its own error, arriving before the refresh resolves are queued in arrival order and launch one refresh between them if the interceptor was idle, none if a refresh was running |
| `TokenInterceptor.RefreshCycleSucceeds` | Sources/PSAPIClient/AccessTokenInterceptor.swift:63-87 | from idle with a refresh token held, N ≥ 1 401s from distinct requests on non-exempt paths, then a successful refresh: exactly one launch, every request retried once in arrival order with the new tokens stored, idle afterwards |
| `TokenInterceptor.RefreshCycleFails` | Sources/PSAPIClient/AccessTokenInterceptor.swift:63-93 | from idle with a refresh token held, N ≥ 1 401s from distinct requests on non-exempt paths, then a failed refresh: exactly one launch, every request failed once in arrival order with the refresh error, each failure delivered after the first `logout` and before the second, tokens kept, idle afterwards |
| `TokenInterceptor.IdleAfterCompletion` | Sources/PSAPIClient/AccessTokenInterceptor.swift:95-98 | after a refresh resolves either way the interceptor is idle with an empty queue, and, when a refresh token is held, the next eligible 401 launches a fresh refresh |
| `TokenInterceptor.NilRefreshTokenLogsOutNext` | Sources/PSAPIClient/AccessTokenInterceptor.swift:59-87 | after a refresh response without a refresh token, nil is stored and the next eligible 401 logs out once, launches no refresh and delivers nothing |
| `TokenInterceptor.TokenRotation` | Sources/PSAPIClient/AccessTokenInterceptor.swift:42-87 | tokens (a1, r1), a 401, refresh called with r1 returning (a2, r2): the provider holds (a2, r2), the request is told to retry, and re-adapting it yields `Authorization: Bearer a2` |
| `NetworkErrors.ClassifyFailure` | Sources/PSAPIClient/NetworkError.swift:34-56 | no status or no body gives `unknown(error, data)`; `notConnectedToInternet` gives `noNet` before the 401 check; 401 gives `unauthorized`; any other status gives `unknown` with the body, wrapping the decode error, `message(msg)` or `unknown(error, data)`; never `message` or `parseError` |
| `NetworkErrors.ProcessResponse` | Sources/PSAPIClient/NetworkError.swift:24-58 | success returns the response data unchanged; a failure is exactly `ClassifyFailure` of its error, status and body, so `noNet`, `unauthorized` or `unknown` as above |
| `NetworkErrors.ProcessResponseVoid` | Sources/PSAPIClient/NetworkError.swift:60-94 | success returns unit; a failure is exactly `ClassifyFailure` of its error, status and body, as in the `Data` overload |
| `NetworkErrors.OverloadsClassifyAlike` | Sources/PSAPIClient/NetworkError.swift:70-93 | for the same failure, status and body the `Data` and `Data?` overloads throw the same error |
| `NetworkErrors.ServerMessageNeverSurfaces` | Sources/PSAPIClient/NetworkError.swift:44-55 | whatever the error body decodes to, a failure ends as `noNet`, `unauthorized` or `unknown`, never as `message` |
| `APIClient.AlamofireMethod` | Sources/PSAPIClient/API.swift:146-153 | the result is POST exactly for `post` and GET for `get`, `put`, `delete` and `patch`; no other Alamofire method is produced |
| `APIClient.Encoder` | Sources/PSAPIClient/API.swift:126-140 | `.jsonEncoded` alone maps to the JSON encoder; `.query` to the URL-form encoder with query-string destination; `.urlEncoded` to the URL-form default |
| `APIClient.EncoderInjective` | Sources/PSAPIClient/API.swift:129-137 | distinct encodings map to distinct encoders |
| `APIClient.MapError` | Sources/PSAPIClient/API.swift:66-68 | an error that is a `NetworkError` is kept unchanged; any other error becomes `parseError(error)` |
| `APIClient.MapErrorIdempotent` | Sources/PSAPIClient/API.swift:97-99 | mapping an already-mapped error again gives the same error |
| `APIClient.ClassifiedFailurePassesThrough` | Sources/PSAPIClient/API.swift:62-67 | a failure produced by either `processResponse` overload reaches the subscriber unchanged through `mapError` |
| `APIClient.API.constructor` | Sources/PSAPIClient/API.swift:25-37 | `headers` is nil when `commonHeaders` is nil and otherwise holds them; `printRequests` is stored and defaults to true; the interceptor is fresh, idle and built from the provider's tokens and paths |
| `APIClient.API.Options` | Sources/PSAPIClient/API.swift:54-59 | the interceptor is attached iff `isAuthenticated`, which defaults to true; the method is `AlamofireMethod` of the endpoint's method and the encoder is `Encoder` of its encoding; the client's headers are passed on (same at lines 86-91) |
| `APIClient.API.AuthenticatedByDefault` | Sources/PSAPIClient/API.swift:47-59 | a request that does not pass `isAuthenticated` gets the token interceptor, as one that passes true does |

## Left out

- Thread safety: the `DispatchQueue` is not modelled. Each `queue.sync`
  block and each sink callback is one atomic method. The race where the sink
  runs `updateTokens`/`doNotRetry` outside the queue is not modelled.
- `[weak self]` lifetimes and the `cancellable` retention are not modelled.
  The sink always finds the interceptor alive.
- Combine and Alamofire pipelines are foreign library calls and are not
  modelled: `AF.request`, `.validate()`, `.publishData()`,
  `.publishUnserialized()`, `.decode`, `eraseToAnyPublisher`. Only the options
  passed to `AF.request` and the `mapError` rule are.
- JSON decoding of error payloads and token responses: the decode outcome is
  an input.
- `printResponse` console logging is I/O with no effect on results.
- URL construction (`URL(string:)!.appendingPathComponent`) is Foundation
  behaviour and is not modelled; `baseUrl` and `Endpoint.path` are kept as
  plain strings.
- `logout` and `getNewToken` are host-supplied. The model counts `logout`
  calls and records the refresh token passed to each `getNewToken`. The
  refresh's outcome arrives as a separate later call, `UpdateTokens` or
  `ReceiveCompletion`.
- The host writing the provider's tokens directly is not modelled. The only
  token writes are those of `updateTokens`.
- Completion closures are identified by a request id. A closure's effect is
  an entry in the `deliveries` log.
- `Authorize`: header names are compared exactly. `setValue(_:forHTTPHeaderField:)`
  matches them case-insensitively, so an existing `authorization` header in
  other casing is not replaced in the model.
- `ContainsIffOccurs`: the empty sub-path counts as contained in every
  string. What Swift's `String.contains` returns for an empty argument
  depends on the library overload chosen.
- `APIClient.API.constructor`: `HTTPHeaders(commonHeaders)` is modelled as the
  dictionary itself, without HTTPHeaders' ordering or case-insensitivity.
  `printRequests` is its last parameter rather than its third, because Dafny
  puts parameters with a default value after the others. It still defaults
  to true.
- `Package.swift` is a build manifest only.

=== FILE: access_token_interceptor.dfy ===
/** The refresh-token interceptor (Sources/PSAPIClient/AccessTokenInterceptor.swift).

    `adapt` attaches `Authorization: Bearer <token>` (section 2.1 of RFC 6750).
    `retry` handles a failed request. A 401 (section 15.5.2 of RFC 9110) on a
    path that may be refreshed queues the request's completion and starts at
    most one token refresh. When that refresh ends, every queued completion
    is called in order and the interceptor goes back to idle.

    Each `queue.sync` block and each sink callback is one atomic step. The
    host's `getNewToken` is recorded in `refreshCalls` together with the
    refresh token it was given. Its outcome arrives later as a call to
    `UpdateTokens` (the sink's value closure) or `ReceiveCompletion`.
    Completions are identified by a `RequestId`. Calling one appends a
    `Delivery` to the log. */
module TokenInterceptor {
  import opened Wrappers
  import opened NetworkErrors

  type RequestId = nat

  /** The parts of a `URLRequest` the interceptor looks at or preserves. */
  datatype URLRequest = URLRequest(url: Option<string>, httpMethod: string, headers: map<string, string>, body: Option<Bytes>)

  /** The provider's `accessToken` and `refreshToken`. */
  datatype TokenPair = TokenPair(access: Option<string>, refresh: Option<string>)

  /** A decoded `TokenResponse` from `getNewToken`. */
  datatype TokenResponse = TokenResponse(accessToken: Option<string>, refreshToken: Option<string>)

  /** Alamofire's `RetryResult`, restricted to the two cases used here. */
  datatype RetryResult = Retry | DoNotRetryWithError(error: Error)

  /** One call of a completion: which request, with what result, and the
      token pair the provider held and the number of `logout()` calls made
      so far at the moment of the call. */
  datatype Delivery = Delivery(request: RequestId, result: RetryResult, tokens: TokenPair, logouts: nat)

  /** Combine's `Subscribers.Completion` of the refresh publisher. */
  datatype SubscriberCompletion = Finished | Failed(error: NetworkError)

  const AuthorizationHeader: string := "Authorization"

  /** `NSError(domain: "Authorization", code: 600)`: what queued requests get
      when a 401 arrives and there is no refresh token. */
  const AuthorizationFailure: Error := NSError("Authorization", 600)

  // ---------------------------------------------------------------------
  // Path matching

  /** `sub` occurs at offset `k` of `s`. */
  predicate OccursAt(s: string, sub: string, k: int)
  {
    0 <= k <= |s| - |sub| && s[k..k + |sub|] == sub
  }

  /** `s.contains(sub)`: `sub` is a prefix of `s` or of one of its suffixes. */
  predicate Contains(s: string, sub: string)
    decreases |s|
  {
    sub <= s || (|s| > 0 && Contains(s[1..], sub))
  }

  /** A slice of `s` without its first character is a slice of `s` one
      place further on. */
  lemma DropOneSlice(s: string, k: nat, n: nat)
    requires k + n < |s|
    ensures s[1..][k..k + n] == s[k + 1..k + 1 + n]
  {
  }

  /** The recursive search finds exactly the offsets where `sub` occurs. */
  lemma {:induction false} ContainsIffOccurs(s: string, sub: string)
    ensures Contains(s, sub) <==> exists k :: OccursAt(s, sub, k)
    decreases |s|
  {
    if sub <= s {
      assert OccursAt(s, sub, 0);
    } else if |s| > 0 {
      ContainsIffOccurs(s[1..], sub);
      if Contains(s[1..], sub) {
        var k :| OccursAt(s[1..], sub, k);
        DropOneSlice(s, k, |sub|);
        assert OccursAt(s, sub, k + 1);
      }
      if exists k :: OccursAt(s, sub, k) {
        var k :| OccursAt(s, sub, k);
        if k > 0 {
          DropOneSlice(s, k - 1, |sub|);
          assert OccursAt(s[1..], sub, k - 1);
        }
      }
    }
  }

  /** The specification of `pathContains(anyOf:)`: the request has a URL and
      some entry of `subPaths` occurs in its string. */
  predicate PathContainsAny(url: Option<string>, subPaths: seq<string>)
  {
    url.Some? && exists i :: 0 <= i < |subPaths| && Contains(url.value, subPaths[i])
  }

  /** `URLRequest.pathContains(anyOf:)`: scans `subPaths` in order and
      returns at the first entry found in the URL string. */
  method PathContains(url: Option<string>, subPaths: seq<string>) returns (found: bool)
    ensures found <==> PathContainsAny(url, subPaths)
    ensures found ==> url.Some? && exists k, i :: 0 <= i < |subPaths| && OccursAt(url.value, subPaths[i], k)
    ensures url.None? || subPaths == [] ==> !found
  {
    for i := 0 to |subPaths|
      invariant forall j :: 0 <= j < i ==> !(url.Some? && Contains(url.value, subPaths[j]))
    {
      if url.Some? && Contains(url.value, subPaths[i]) {
        ContainsIffOccurs(url.value, subPaths[i]);
        return true;
      }
    }
    return false;
  }

  /** The request `retry` sees is on a path where a 401 must not trigger a
      refresh. A request without a current `URLRequest` is not exempt. */
  predicate RefreshExempt(currentRequest: Option<URLRequest>, doNotRefreshPaths: seq<string>)
  {
    currentRequest.Some? && PathContainsAny(currentRequest.value.url, doNotRefreshPaths)
  }

  // ---------------------------------------------------------------------
  // adapt

  /** What `adapt` does to a request, given the provider's access token.
      Without a token, or on an auth path, the request is passed through.
      Otherwise exactly the `Authorization` header is set to
      `"Bearer " + accessToken`, and nothing else changes. */
  function Authorize(request: URLRequest, accessToken: Option<string>, authPaths: seq<string>): (r: URLRequest)
    ensures accessToken.None? || PathContainsAny(request.url, authPaths) ==> r == request
    ensures r.url == request.url && r.httpMethod == request.httpMethod && r.body == request.body
    ensures accessToken.Some? && !PathContainsAny(request.url, authPaths) ==>
      && r.headers.Keys == request.headers.Keys + {AuthorizationHeader}
      && r.headers[AuthorizationHeader] == "Bearer " + accessToken.value
      && forall h :: h in request.headers && h != AuthorizationHeader ==> r.headers[h] == request.headers[h]
  {
    if accessToken.None? || PathContainsAny(request.url, authPaths) then request
    else request.(headers := request.headers[AuthorizationHeader := "Bearer " + accessToken.value])
  }

  // ---------------------------------------------------------------------
  // The interceptor's state and its steps

  /** Everything the interceptor holds, plus a ghost history: `enqueued`
      lists every request ever queued, `released` every queued request
      whose completion has been called, and `callsAtIdle` the number of
      refreshes launched when the interceptor last became idle. */
  datatype RefreshState = RefreshState(
    tokens: TokenPair,
    isRefreshing: bool,
    requestsToRetry: seq<RequestId>,
    refreshCalls: seq<string>,
    logouts: nat,
    deliveries: seq<Delivery>,
    enqueued: seq<RequestId>,
    released: seq<RequestId>,
    callsAtIdle: nat)

  /** The interceptor's invariant. (1) Requests are queued only while a
      refresh is running. (2) Queued completions are released in the order
      they were queued, each exactly once. (3) While refreshing, exactly one
      refresh has been launched since the interceptor was last idle; while
      idle, none. */
  ghost predicate Inv(s: RefreshState)
  {
    && (s.requestsToRetry != [] ==> s.isRefreshing)
    && s.released + s.requestsToRetry == s.enqueued
    && |s.refreshCalls| == s.callsAtIdle + (if s.isRefreshing then 1 else 0)
  }

  /** The log entries for calling each completion of `queue`, in order, with
      `result`. */
  function Served(queue: seq<RequestId>, result: RetryResult, tokens: TokenPair, logouts: nat): (r: seq<Delivery>)
    ensures |r| == |queue|
    ensures forall i :: 0 <= i < |queue| ==> r[i] == Delivery(queue[i], result, tokens, logouts)
  {
    if queue == [] then [] else [Delivery(queue[0], result, tokens, logouts)] + Served(queue[1..], result, tokens, logouts)
  }

  /** Calling one more completion extends the log by its one entry. */
  lemma ServedAppend(queue: seq<RequestId>, request: RequestId, result: RetryResult, tokens: TokenPair, logouts: nat)
    ensures Served(queue + [request], result, tokens, logouts)
         == Served(queue, result, tokens, logouts) + [Delivery(request, result, tokens, logouts)]
  {
  }

  /** `requestsToRetry.forEach { $0(result) }`. */
  ghost function CallQueuedStep(s: RefreshState, result: RetryResult): (r: RefreshState)
  {
    s.(deliveries := s.deliveries + Served(s.requestsToRetry, result, s.tokens, s.logouts),
       released := s.released + s.requestsToRetry)
  }

  /** `onRefreshDone`: empty the queue and go back to idle. */
  ghost function OnRefreshDoneStep(s: RefreshState): (r: RefreshState)
  {
    s.(requestsToRetry := [], isRefreshing := false, callsAtIdle := |s.refreshCalls|)
  }

  /** `doNotRetry(error:)`: log out, then fail every queued request with
      `error` (each failure is delivered after that `logout`), then go back
      to idle. */
  ghost function DoNotRetryStep(s: RefreshState, error: Error): (r: RefreshState)
    ensures Inv(s) ==> Inv(r)
    ensures !r.isRefreshing && r.requestsToRetry == []
    ensures r.deliveries == s.deliveries + Served(s.requestsToRetry, DoNotRetryWithError(error), s.tokens, s.logouts + 1)
    ensures r.logouts == s.logouts + 1
    ensures r.tokens == s.tokens && r.refreshCalls == s.refreshCalls
  {
    OnRefreshDoneStep(CallQueuedStep(s.(logouts := s.logouts + 1), DoNotRetryWithError(error)))
  }

  /** `updateTokens(response:)`: store both tokens from the response, then let
      every queued request retry, then go back to idle. */
  ghost function UpdateTokensStep(s: RefreshState, response: TokenResponse): (r: RefreshState)
    ensures Inv(s) ==> Inv(r)
    ensures !r.isRefreshing && r.requestsToRetry == []
    ensures r.tokens == TokenPair(response.accessToken, response.refreshToken)
    ensures r.deliveries == s.deliveries + Served(s.requestsToRetry, Retry, r.tokens, s.logouts)
    ensures r.logouts == s.logouts && r.refreshCalls == s.refreshCalls
  {
    var stored := s.(tokens := TokenPair(response.accessToken, response.refreshToken));
    OnRefreshDoneStep(CallQueuedStep(stored, Retry))
  }

  /** The refresh sink's `receiveCompletion`: on failure, `doNotRetry` with the
      refresh error followed by a second `logout`; `finished` does nothing. */
  ghost function ReceiveCompletionStep(s: RefreshState, completion: SubscriberCompletion): (r: RefreshState)
    ensures Inv(s) ==> Inv(r)
    ensures completion.Finished? ==> r == s
  {
    match completion
    case Finished => s
    case Failed(e) =>
      var failed := DoNotRetryStep(s, Network(e));
      failed.(logouts := failed.logouts + 1)
  }

  /** `retry(_:for:dueTo:completion:)` for the request `request`, whose
      response carried `statusCode`. */
  ghost function RetryStep(s: RefreshState, doNotRefreshPaths: seq<string>, request: RequestId,
                           statusCode: Option<int>, currentRequest: Option<URLRequest>, error: Error): (r: RefreshState)
    ensures Inv(s) ==> Inv(r)
    ensures r.refreshCalls == s.refreshCalls || (!s.isRefreshing && s.tokens.refresh.Some? && r.refreshCalls == s.refreshCalls + [s.tokens.refresh.value])
    ensures r.tokens == s.tokens
  {
    if statusCode != Some(401) || RefreshExempt(currentRequest, doNotRefreshPaths) then
      s.(deliveries := s.deliveries + [Delivery(request, DoNotRetryWithError(error), s.tokens, s.logouts)])
    else if s.tokens.refresh.None? then
      DoNotRetryStep(s, AuthorizationFailure)
    else
      var queued := s.(requestsToRetry := s.requestsToRetry + [request], enqueued := s.enqueued + [request]);
      if s.isRefreshing then queued
      else queued.(isRefreshing := true, refreshCalls := s.refreshCalls + [s.tokens.refresh.value])
  }

  // ---------------------------------------------------------------------
  // The interceptor object

  class AccessTokenInterceptor {
    var tokens: TokenPair
    const authPaths: seq<string>
    const doNotRefreshPaths: seq<string>
    var isRefreshing: bool
    var requestsToRetry: seq<RequestId>
    var refreshCalls: seq<string>
    var logouts: nat
    var deliveries: seq<Delivery>
    ghost var enqueued: seq<RequestId>
    ghost var released: seq<RequestId>
    ghost var callsAtIdle: nat

    ghost function State(): (r: RefreshState)
      reads this
    {
      RefreshState(tokens, isRefreshing, requestsToRetry, refreshCalls, logouts, deliveries,
                   enqueued, released, callsAtIdle)
    }

    ghost predicate Valid()
      reads this
    {
      Inv(State())
    }

    /** `init(accessTokenProvider:)`: idle, nothing queued, nothing logged. */
    constructor (tokens: TokenPair, authPaths: seq<string>, doNotRefreshPaths: seq<string>)
      ensures Valid()
      ensures this.tokens == tokens && this.authPaths == authPaths && this.doNotRefreshPaths == doNotRefreshPaths
      ensures !isRefreshing && requestsToRetry == [] && refreshCalls == [] && logouts == 0 && deliveries == []
    {
      this.tokens := tokens;
      this.authPaths := authPaths;
      this.doNotRefreshPaths := doNotRefreshPaths;
      isRefreshing := false;
      requestsToRetry := [];
      refreshCalls := [];
      logouts := 0;
      deliveries := [];
      enqueued := [];
      released := [];
      callsAtIdle := 0;
    }

    /** `adapt(_:for:completion:)`: never fails, and hands on the request as
        `Authorize` rewrites it with the current access token. */
    function Adapt(request: URLRequest): (r: Result<URLRequest, Error>)
      reads this
      ensures r.Success?
      ensures r.value == Authorize(request, tokens.access, authPaths)
    {
      Success(Authorize(request, tokens.access, authPaths))
    }

    /** `retry(_:for:dueTo:completion:)`. */
    method Retry(request: RequestId, statusCode: Option<int>, currentRequest: Option<URLRequest>, error: Error)
      requires Valid()
      modifies this
      ensures Valid()
      ensures State() == RetryStep(old(State()), doNotRefreshPaths, request, statusCode, currentRequest, error)
    {
      var eligible := statusCode == Some(401);
      if eligible && currentRequest.Some? {
        var exempt := PathContains(currentRequest.value.url, doNotRefreshPaths);
        eligible := !exempt;
      }
      if !eligible {
        deliveries := deliveries + [Delivery(request, DoNotRetryWithError(error), tokens, logouts)];
        return;
      }
      if tokens.refresh.None? {
        DoNotRetry(AuthorizationFailure);
        return;
      }
      var currentRefreshToken := tokens.refresh.value;
      requestsToRetry := requestsToRetry + [request];
      enqueued := enqueued + [request];
      if !isRefreshing {
        isRefreshing := true;
        refreshCalls := refreshCalls + [currentRefreshToken];
      }
    }

    /** The refresh sink's `receiveCompletion` closure. */
    method ReceiveCompletion(completion: SubscriberCompletion)
      requires Valid()
      modifies this
      ensures Valid()
      ensures State() == ReceiveCompletionStep(old(State()), completion)
    {
      if completion.Failed? {
        DoNotRetry(Network(completion.error));
        logouts := logouts + 1;
      }
    }

    /** `updateTokens(response:)`, run by the refresh sink's value closure. */
    method UpdateTokens(response: TokenResponse)
      requires Valid()
      modifies this
      ensures Valid()
      ensures State() == UpdateTokensStep(old(State()), response)
    {
      tokens := tokens.(refresh := response.refreshToken);
      tokens := tokens.(access := response.accessToken);
      CallQueued(RetryResult.Retry);
      OnRefreshDone();
    }

    /** `doNotRetry(error:)`. */
    method DoNotRetry(error: Error)
      requires Valid()
      modifies this
      ensures Valid()
      ensures State() == DoNotRetryStep(old(State()), error)
    {
      logouts := logouts + 1;
      CallQueued(DoNotRetryWithError(error));
      OnRefreshDone();
    }

    /** `onRefreshDone()`. */
    method OnRefreshDone()
      modifies this
      ensures State() == OnRefreshDoneStep(old(State()))
    {
      requestsToRetry := [];
      isRefreshing := false;
      callsAtIdle := |refreshCalls|;
    }

    /** The `requestsToRetry.forEach { $0(result) }` loop of `updateTokens` and
        `doNotRetry`. */
    method CallQueued(result: RetryResult)
      modifies this
      ensures State() == CallQueuedStep(old(State()), result)
    {
      var queue, log := requestsToRetry, deliveries;
      for i := 0 to |queue|
        invariant unchanged(this)
        invariant log == deliveries + Served(queue[..i], result, tokens, logouts)
      {
        assert queue[..i + 1] == queue[..i] + [queue[i]];
        ServedAppend(queue[..i], queue[i], result, tokens, logouts);
        log := log + [Delivery(queue[i], result, tokens, logouts)];
      }
      assert queue[..|queue|] == queue;
      deliveries := log;
      released := released + requestsToRetry;
    }
  }

  // ---------------------------------------------------------------------
  // Properties of single steps

  /** No response, a status other than 401, or a path in `doNotRefreshPaths`:
      the completion is called at once with the original error, and nothing
      else changes. */
  lemma IneligibleFailsAtOnce(s: RefreshState, doNotRefreshPaths: seq<string>, request: RequestId,
                              statusCode: Option<int>, currentRequest: Option<URLRequest>, error: Error)
    requires statusCode != Some(401) || RefreshExempt(currentRequest, doNotRefreshPaths)
    ensures var r := RetryStep(s, doNotRefreshPaths, request, statusCode, currentRequest, error);
      && r.deliveries == s.deliveries + [Delivery(request, DoNotRetryWithError(error), s.tokens, s.logouts)]
      && r.requestsToRetry == s.requestsToRetry && r.isRefreshing == s.isRefreshing
      && r.refreshCalls == s.refreshCalls && r.logouts == s.logouts
  {
  }

  /** An eligible 401 with no refresh token: `logout` runs once, every request
      already queued fails with the Authorization/600 error, and the
      interceptor is idle. The current request is neither queued nor
      completed; in particular, from an idle state nothing is delivered. */
  lemma MissingRefreshTokenLogsOut(s: RefreshState, doNotRefreshPaths: seq<string>, request: RequestId,
                                   currentRequest: Option<URLRequest>, error: Error)
    requires Inv(s)
    requires s.tokens.refresh.None? && !RefreshExempt(currentRequest, doNotRefreshPaths)
    ensures var r := RetryStep(s, doNotRefreshPaths, request, Some(401), currentRequest, error);
      && r.logouts == s.logouts + 1
      && r.deliveries == s.deliveries + Served(s.requestsToRetry, DoNotRetryWithError(AuthorizationFailure), s.tokens, s.logouts + 1)
      && r.requestsToRetry == [] && !r.isRefreshing
      && r.refreshCalls == s.refreshCalls && r.enqueued == s.enqueued
      && (!s.isRefreshing ==> r.deliveries == s.deliveries)
  {
  }

  /** An eligible 401 with a refresh token joins the end of the queue. A
      refresh is launched, with the current refresh token, exactly when none
      was running. */
  lemma EligibleEnqueues(s: RefreshState, doNotRefreshPaths: seq<string>, request: RequestId,
                         currentRequest: Option<URLRequest>, error: Error)
    requires s.tokens.refresh.Some? && !RefreshExempt(currentRequest, doNotRefreshPaths)
    ensures var r := RetryStep(s, doNotRefreshPaths, request, Some(401), currentRequest, error);
      && r.requestsToRetry == s.requestsToRetry + [request]
      && r.isRefreshing
      && r.refreshCalls == s.refreshCalls + (if s.isRefreshing then [] else [s.tokens.refresh.value])
      && r.deliveries == s.deliveries && r.logouts == s.logouts
  {
  }

  /** A failed refresh fails every queued request, in order, with the
      refresh's own error, keeps the tokens, runs `logout` twice and returns
      to idle. Every failure is delivered after the first `logout` and
      before the second. */
  lemma RefreshFailureFailsAll(s: RefreshState, e: NetworkError)
    ensures var r := ReceiveCompletionStep(s, Failed(e));
      && r.deliveries == s.deliveries + Served(s.requestsToRetry, DoNotRetryWithError(Network(e)), s.tokens, s.logouts + 1)
      && r.tokens == s.tokens
      && r.logouts == s.logouts + 2
      && r.requestsToRetry == [] && !r.isRefreshing
      && forall i :: |s.deliveries| <= i < |r.deliveries| ==> s.logouts < r.deliveries[i].logouts < r.logouts
  {
  }

  // ---------------------------------------------------------------------
  // Properties of request batches and refresh cycles

  /** One failed request handed to `retry`: the completion's id, the
      `URLRequest` that failed (if any) and the error it failed with. */
  datatype FailedCall = FailedCall(id: RequestId, current: Option<URLRequest>, error: Error)

  /** The completion ids of `calls`, in order. */
  function Ids(calls: seq<FailedCall>): (r: seq<RequestId>)
    ensures |r| == |calls|
    ensures forall i :: 0 <= i < |calls| ==> r[i] == calls[i].id
  {
    if calls == [] then [] else [calls[0].id] + Ids(calls[1..])
  }

  /** `retry` called for each of `calls` in turn, every response carrying
      `statusCode`. */
  ghost function RetryAll(s: RefreshState, doNotRefreshPaths: seq<string>, calls: seq<FailedCall>,
                          statusCode: Option<int>): (r: RefreshState)
    decreases |calls|
  {
    if calls == [] then s
    else RetryAll(RetryStep(s, doNotRefreshPaths, calls[0].id, statusCode, calls[0].current, calls[0].error),
                  doNotRefreshPaths, calls[1..], statusCode)
  }

  /** Queueing one request and then several is queueing all of them. */
  lemma QueueExtends(queue: seq<RequestId>, request: RequestId, more: seq<RequestId>)
    ensures (queue + [request]) + more == queue + ([request] + more)
  {
  }

  /** Any number of 401s on refreshable paths, from distinct requests with
      their own errors, arriving before the refresh resolves, are queued in
      arrival order and launch at most one refresh between them: one if the
      interceptor was idle, none if a refresh was already running. */
  lemma {:induction false} ConcurrentUnauthorized(s: RefreshState, doNotRefreshPaths: seq<string>,
                                                  calls: seq<FailedCall>)
    requires Inv(s) && s.tokens.refresh.Some?
    requires forall i :: 0 <= i < |calls| ==> !RefreshExempt(calls[i].current, doNotRefreshPaths)
    ensures var r := RetryAll(s, doNotRefreshPaths, calls, Some(401));
      && Inv(r)
      && r.requestsToRetry == s.requestsToRetry + Ids(calls)
      && r.isRefreshing == (s.isRefreshing || calls != [])
      && r.refreshCalls == s.refreshCalls + (if s.isRefreshing || calls == [] then [] else [s.tokens.refresh.value])
      && r.tokens == s.tokens && r.deliveries == s.deliveries && r.logouts == s.logouts
    decreases |calls|
  {
    if calls != [] {
      var c := calls[0];
      var next := RetryStep(s, doNotRefreshPaths, c.id, Some(401), c.current, c.error);
      EligibleEnqueues(s, doNotRefreshPaths, c.id, c.current, c.error);
      var rest := calls[1..];
      assert RetryAll(s, doNotRefreshPaths, calls, Some(401)) == RetryAll(next, doNotRefreshPaths, rest, Some(401));
      assert forall i :: 0 <= i < |rest| ==> rest[i] == calls[i + 1];
      ConcurrentUnauthorized(next, doNotRefreshPaths, rest);
      assert Ids(calls) == [c.id] + Ids(rest);
      QueueExtends(s.requestsToRetry, c.id, Ids(rest));
    }
  }

  /** A full successful cycle from idle: N 401s on refreshable paths, then
      the refresh returns a token pair. Exactly one refresh ran; every request
      retries, in arrival order, with the new tokens already stored; the
      interceptor is idle again. */
  lemma RefreshCycleSucceeds(s: RefreshState, doNotRefreshPaths: seq<string>, calls: seq<FailedCall>,
                             response: TokenResponse)
    requires Inv(s) && !s.isRefreshing && s.tokens.refresh.Some? && calls != []
    requires forall i :: 0 <= i < |calls| ==> !RefreshExempt(calls[i].current, doNotRefreshPaths)
    ensures var r := UpdateTokensStep(RetryAll(s, doNotRefreshPaths, calls, Some(401)), response);
      && Inv(r)
      && r.refreshCalls == s.refreshCalls + [s.tokens.refresh.value]
      && r.tokens == TokenPair(response.accessToken, response.refreshToken)
      && r.deliveries == s.deliveries + Served(Ids(calls), Retry, r.tokens, s.logouts)
      && r.requestsToRetry == [] && !r.isRefreshing && r.logouts == s.logouts
  {
    ConcurrentUnauthorized(s, doNotRefreshPaths, calls);
    var queued := RetryAll(s, doNotRefreshPaths, calls, Some(401));
    assert queued.requestsToRetry == Ids(calls);
    var r := UpdateTokensStep(queued, response);
    assert r.deliveries == s.deliveries + Served(Ids(calls), Retry, r.tokens, s.logouts);
  }

  /** A full failed cycle from idle: N 401s on refreshable paths, then the
      refresh fails. Exactly one refresh ran; every request fails, in arrival
      order, with the refresh's error, after the first `logout` and before
      the second; tokens are kept. */
  lemma RefreshCycleFails(s: RefreshState, doNotRefreshPaths: seq<string>, calls: seq<FailedCall>,
                          e: NetworkError)
    requires Inv(s) && !s.isRefreshing && s.tokens.refresh.Some? && calls != []
    requires forall i :: 0 <= i < |calls| ==> !RefreshExempt(calls[i].current, doNotRefreshPaths)
    ensures var r := ReceiveCompletionStep(RetryAll(s, doNotRefreshPaths, calls, Some(401)), Failed(e));
      && Inv(r)
      && r.refreshCalls == s.refreshCalls + [s.tokens.refresh.value]
      && r.tokens == s.tokens
      && r.deliveries == s.deliveries + Served(Ids(calls), DoNotRetryWithError(Network(e)), s.tokens, s.logouts + 1)
      && r.logouts == s.logouts + 2
      && r.requestsToRetry == [] && !r.isRefreshing
      && |r.deliveries| == |s.deliveries| + |calls|
      && forall i :: |s.deliveries| <= i < |r.deliveries| ==> s.logouts < r.deliveries[i].logouts < r.logouts
  {
    ConcurrentUnauthorized(s, doNotRefreshPaths, calls);
    var queued := RetryAll(s, doNotRefreshPaths, calls, Some(401));
    FailQueued(s, queued, Ids(calls), e);
  }

  /** The failure half of `RefreshCycleFails`: `queued` is `s` with `ids`
      queued behind one launch. */
  lemma FailQueued(s: RefreshState, queued: RefreshState, ids: seq<RequestId>, e: NetworkError)
    requires Inv(queued) && queued.requestsToRetry == ids
    requires queued.tokens == s.tokens && queued.deliveries == s.deliveries && queued.logouts == s.logouts
    ensures var r := ReceiveCompletionStep(queued, Failed(e));
      && Inv(r)
      && r.refreshCalls == queued.refreshCalls
      && r.tokens == s.tokens
      && r.deliveries == s.deliveries + Served(ids, DoNotRetryWithError(Network(e)), s.tokens, s.logouts + 1)
      && r.logouts == s.logouts + 2
      && r.requestsToRetry == [] && !r.isRefreshing
      && |r.deliveries| == |s.deliveries| + |ids|
      && forall i :: |s.deliveries| <= i < |r.deliveries| ==> s.logouts < r.deliveries[i].logouts < r.logouts
  {
    RefreshFailureFailsAll(queued, e);
  }

  /** Once a refresh has resolved either way, the next eligible 401 (with a
      refresh token available) starts a new refresh of its own. */
  lemma IdleAfterCompletion(s: RefreshState, outcome: Result<TokenResponse, NetworkError>, doNotRefreshPaths: seq<string>,
                            request: RequestId, currentRequest: Option<URLRequest>, error: Error)
    requires Inv(s) && !RefreshExempt(currentRequest, doNotRefreshPaths)
    ensures var done := match outcome
                        case Success(response) => UpdateTokensStep(s, response)
                        case Failure(e) => ReceiveCompletionStep(s, Failed(e));
      && Inv(done) && !done.isRefreshing && done.requestsToRetry == []
      && (done.tokens.refresh.Some? ==>
            RetryStep(done, doNotRefreshPaths, request, Some(401), currentRequest, error).refreshCalls
              == done.refreshCalls + [done.tokens.refresh.value])
  {
  }

  /** A refresh response without a refresh token stores nil, so the next
      eligible 401 takes the missing-token exit: it logs out and launches no
      refresh, and as the queue is already empty nothing is delivered. */
  lemma NilRefreshTokenLogsOutNext(s: RefreshState, access: Option<string>, doNotRefreshPaths: seq<string>,
                                   request: RequestId, currentRequest: Option<URLRequest>, error: Error)
    requires !RefreshExempt(currentRequest, doNotRefreshPaths)
    ensures var stored := UpdateTokensStep(s, TokenResponse(access, None));
      var next := RetryStep(stored, doNotRefreshPaths, request, Some(401), currentRequest, error);
      && stored.tokens.refresh.None?
      && next.refreshCalls == stored.refreshCalls
      && next.logouts == stored.logouts + 1
      && next.deliveries == stored.deliveries
      && next.requestsToRetry == [] && !next.isRefreshing
  {
  }

  /** Token rotation: with tokens (a1, r1), a request fails with 401, the
      refresh (called with r1) returns (a2, r2). Afterwards the provider
      holds (a2, r2), the request is told to retry, and when Alamofire adapts
      it again it carries `Authorization: Bearer a2`. */
  lemma TokenRotation(a1: string, r1: string, a2: string, r2: string, authPaths: seq<string>,
                      doNotRefreshPaths: seq<string>, request: RequestId, original: URLRequest, error: Error)
    requires !RefreshExempt(Some(original), doNotRefreshPaths) && !PathContainsAny(original.url, authPaths)
    ensures var s0 := RefreshState(TokenPair(Some(a1), Some(r1)), false, [], [], 0, [], [], [], 0);
      var s1 := RetryStep(s0, doNotRefreshPaths, request, Some(401), Some(original), error);
      var s2 := UpdateTokensStep(s1, TokenResponse(Some(a2), Some(r2)));
      && s1.refreshCalls == [r1]
      && s2.tokens == TokenPair(Some(a2), Some(r2))
      && s2.deliveries == [Delivery(request, Retry, TokenPair(Some(a2), Some(r2)), 0)]
      && Authorize(original, s2.tokens.access, authPaths).headers[AuthorizationHeader] == "Bearer " + a2
  {
  }
}

=== FILE: api.dfy ===
/** The request options the `API` client passes to Alamofire
    (Sources/PSAPIClient/API.swift): the HTTP method, the parameter encoder,
    the common headers, the interceptor, and how errors are mapped. */
module APIClient {
  import opened Wrappers
  import opened NetworkErrors
  import opened TokenInterceptor

  /** The client's own HTTP methods. */
  datatype HTTPMethod = Get | Post | Put | Delete | Patch

  /** `Alamofire.HTTPMethod`. */
  datatype AFMethod = AFConnect | AFDelete | AFGet | AFHead | AFOptions | AFPatch | AFPost | AFPut | AFTrace

  /** How parameters are encoded. */
  datatype ParametersEncoding = Query | URLEncoded | JSONEncoded

  /** Where `URLEncodedFormParameterEncoder` puts the encoded parameters.
      Alamofire's default is `methodDependent`. */
  datatype Destination = MethodDependent | QueryString | HTTPBody

  /** Alamofire's `ParameterEncoder`s, as tags. */
  datatype ParameterEncoder = URLEncodedForm(destination: Destination) | JSONParameters

  /** `HTTPMethod.alamofireMethod`: `post` becomes POST and every other
      method becomes GET. */
  function AlamofireMethod(m: HTTPMethod): (r: AFMethod)
    ensures r == AFPost <==> m == Post
    ensures r == AFGet <==> m != Post
  {
    match m
    case Post => AFPost
    case _ => AFGet
  }

  /** `ParametersEncoding.encoder`. `query` is a URL-form encoder that writes
      to the query string, `urlEncoded` is the URL-form default, and
      `jsonEncoded` is the JSON default. */
  function Encoder(e: ParametersEncoding): (r: ParameterEncoder)
    ensures r.JSONParameters? <==> e == JSONEncoded
    ensures r.URLEncodedForm? ==> (r.destination == QueryString <==> e == Query)
    ensures r.URLEncodedForm? ==> (r.destination == MethodDependent <==> e == URLEncoded)
  {
    match e
    case Query => URLEncodedForm(QueryString)
    case URLEncoded => URLEncodedForm(MethodDependent)
    case JSONEncoded => JSONParameters
  }

  /** The three encodings reach three different encoders. */
  lemma EncoderInjective(e1: ParametersEncoding, e2: ParametersEncoding)
    requires Encoder(e1) == Encoder(e2)
    ensures e1 == e2
  {
  }

  /** The `mapError` closure: an error that already is a `NetworkError` is
      kept, any other error becomes `parseError(error)`. */
  function MapError(e: Error): (r: NetworkError)
    ensures e.Network? ==> r == e.networkError
    ensures !e.Network? ==> r.ParseError? && r.cause == e
  {
    match e
    case Network(ne) => ne
    case _ => ParseError(e)
  }

  /** Mapping an already-mapped error again changes nothing. */
  lemma MapErrorIdempotent(e: Error)
    ensures MapError(Network(MapError(e))) == MapError(e)
  {
  }

  /** A failure classified by `processResponse` reaches the subscriber
      unchanged, whichever overload produced it. */
  lemma ClassifiedFailurePassesThrough(response: DataResponse<Bytes>, optionalResponse: DataResponse<Option<Bytes>>,
                                       decode: Bytes -> DecodeOutcome)
    ensures ProcessResponse(response, decode).Failure? ==>
      MapError(Network(ProcessResponse(response, decode).error)) == ProcessResponse(response, decode).error
    ensures ProcessResponseVoid(optionalResponse, decode).Failure? ==>
      MapError(Network(ProcessResponseVoid(optionalResponse, decode).error)) == ProcessResponseVoid(optionalResponse, decode).error
  {
  }

  /** The parts of an `Endpoint` that decide the request options. */
  datatype Endpoint = Endpoint(path: string, encoding: ParametersEncoding, httpMethod: HTTPMethod)

  /** The options `AF.request` is called with. */
  datatype RequestOptions = RequestOptions(
    httpMethod: AFMethod,
    encoder: ParameterEncoder,
    headers: Option<map<string, string>>,
    interceptor: Option<AccessTokenInterceptor>)

  /** The `API` client. Its fields are set once, by the constructor. */
  class API {
    const baseUrl: string
    const headers: Option<map<string, string>>
    const printRequests: bool
    const interceptor: AccessTokenInterceptor

    /** `init(baseUrl:commonHeaders:printRequests:oauthProvider:)`: builds the
        interceptor from the provider, and sets `headers` only when
        `commonHeaders` is given. `printRequests` defaults to true; it is the
        last parameter here because a defaulted parameter comes last. */
    constructor (baseUrl: string, commonHeaders: Option<map<string, string>>, tokens: TokenPair,
                 authPaths: seq<string>, doNotRefreshPaths: seq<string>, printRequests: bool := true)
      ensures this.baseUrl == baseUrl && this.printRequests == printRequests
      ensures headers.None? <==> commonHeaders.None?
      ensures headers.Some? ==> headers.value == commonHeaders.value
      ensures fresh(interceptor) && interceptor.Valid()
      ensures interceptor.tokens == tokens && interceptor.authPaths == authPaths
      ensures interceptor.doNotRefreshPaths == doNotRefreshPaths
      ensures !interceptor.isRefreshing && interceptor.requestsToRetry == []
    {
      this.baseUrl := baseUrl;
      this.printRequests := printRequests;
      interceptor := new AccessTokenInterceptor(tokens, authPaths, doNotRefreshPaths);
      if commonHeaders.None? {
        headers := None;
      } else {
        headers := Some(commonHeaders.value);
      }
    }

    /** The options both `request` overloads pass to `AF.request`. The
        interceptor is attached exactly when the request is authenticated,
        which it is unless the caller says otherwise. */
    function Options(endpoint: Endpoint, isAuthenticated: bool := true): (r: RequestOptions)
      ensures r.interceptor.Some? <==> isAuthenticated
      ensures r.interceptor.Some? ==> r.interceptor.value == interceptor
      ensures r.httpMethod == AlamofireMethod(endpoint.httpMethod)
      ensures r.encoder == Encoder(endpoint.encoding)
      ensures r.headers == headers
    {
      RequestOptions(AlamofireMethod(endpoint.httpMethod), Encoder(endpoint.encoding), headers,
                     if isAuthenticated then Some(interceptor) else None)
    }

    /** A request whose caller does not mention authentication goes out with
        the token interceptor. */
    lemma AuthenticatedByDefault(endpoint: Endpoint)
      ensures Options(endpoint).interceptor == Some(interceptor)
      ensures Options(endpoint) == Options(endpoint, true)
    {
    }
  }
}

=== FILE: network_error.dfy ===
/** Classification of a finished HTTP exchange into a payload or a
    `NetworkError` (Sources/PSAPIClient/NetworkError.swift). */
module NetworkErrors {
  import opened Wrappers

  /** A response body: Foundation's `Data`. */
  type Bytes = seq<bv8>

  /** `URLError.Code.notConnectedToInternet.rawValue`. */
  const NotConnectedToInternet: int := -1009

  /** The Swift `Error` values that reach the client: Alamofire's own
      failure, a JSON decoding failure, an `NSError`, or one of the
      client's `NetworkError`s. */
  datatype Error =
    | AFError(reason: string)
    | DecodingError(reason: string)
    | NSError(domain: string, code: int)
    | Network(networkError: NetworkError)

  /** The error type every request publisher fails with. */
  datatype NetworkError =
    | NoNet
    | Unauthorized
    | Message(text: string)
    | ParseError(cause: Error)
    | Unknown(error: Option<Error>, data: Option<Bytes>)

  /** What Alamofire hands to `processResponse`: the validated result, the
      HTTP status (absent when there was no HTTP response) and the raw body. */
  datatype DataResponse<D> = DataResponse(result: Result<D, Error>, statusCode: Option<int>, data: Option<Bytes>)

  /** Outcome of `T.decoder.decode(T.self, from: data)` on an error body:
      either the decoder throws, or it yields a payload whose `message`
      may be absent. */
  datatype DecodeOutcome = DecodeFailed(error: Error) | Decoded(message: Option<string>)

  /** The classification both `processResponse` overloads apply to a failed
      result `error`. In the default branch every error thrown inside the
      `do` block, including `message(msg)`, is caught and rethrown wrapped in
      `unknown`, so a failure never ends as `message`. */
  function ClassifyFailure(error: Error, statusCode: Option<int>, data: Option<Bytes>,
                           decode: Bytes -> DecodeOutcome): (r: NetworkError)
    ensures statusCode.None? || data.None? ==> r == Unknown(Some(error), data)
    ensures statusCode.Some? && data.Some? ==>
      && (statusCode.value == NotConnectedToInternet <==> r == NoNet)
      && (statusCode.value == 401 <==> r == Unauthorized)
    ensures r.Unknown? <==> statusCode.None? || data.None? || statusCode.value !in {NotConnectedToInternet, 401}
    ensures r.Unknown? ==> r.error.Some? && r.data == data
    ensures !r.Message? && !r.ParseError?
    ensures statusCode.Some? && data.Some? && statusCode.value !in {NotConnectedToInternet, 401} ==>
      r.error == Some(match decode(data.value)
                      case DecodeFailed(e) => e
                      case Decoded(Some(msg)) => Network(Message(msg))
                      case Decoded(None) => Network(Unknown(Some(error), data)))
  {
    if statusCode.None? || data.None? then
      Unknown(Some(error), data)
    else if statusCode.value == NotConnectedToInternet then
      NoNet
    else if statusCode.value == 401 then
      Unauthorized
    else
      var thrown := match decode(data.value)
        case DecodeFailed(e) => e
        case Decoded(Some(msg)) => Network(Message(msg))
        case Decoded(None) => Network(Unknown(Some(error), data));
      Unknown(Some(thrown), data)
  }

  /** `processResponse` for a `DataResponse<Data, AFError>`: the body on
      success, otherwise the classified failure. */
  function ProcessResponse(response: DataResponse<Bytes>, decode: Bytes -> DecodeOutcome): (r: Result<Bytes, NetworkError>)
    ensures response.result.Success? <==> r.Success?
    ensures response.result.Success? ==> r.value == response.result.value
    ensures response.result.Failure? ==>
      r.error == ClassifyFailure(response.result.error, response.statusCode, response.data, decode)
    ensures response.result.Failure? && (response.statusCode.None? || response.data.None?) ==>
      r.error == Unknown(Some(response.result.error), response.data)
    ensures response.result.Failure? && response.statusCode.Some? && response.data.Some? ==>
      && (response.statusCode.value == NotConnectedToInternet <==> r.error == NoNet)
      && (response.statusCode.value == 401 <==> r.error == Unauthorized)
      && (response.statusCode.value !in {NotConnectedToInternet, 401} <==> r.error.Unknown? && r.error.data == response.data)
  {
    match response.result
    case Success(data) => Success(data)
    case Failure(error) => Failure(ClassifyFailure(error, response.statusCode, response.data, decode))
  }

  /** `processResponse` for a `DataResponse<Data?, AFError>`: unit on
      success, otherwise the classified failure. */
  function ProcessResponseVoid(response: DataResponse<Option<Bytes>>, decode: Bytes -> DecodeOutcome): (r: Result<(), NetworkError>)
    ensures response.result.Success? <==> r.Success?
    ensures response.result.Failure? ==>
      r.error == ClassifyFailure(response.result.error, response.statusCode, response.data, decode)
    ensures response.result.Failure? && (response.statusCode.None? || response.data.None?) ==>
      r.error == Unknown(Some(response.result.error), response.data)
    ensures response.result.Failure? && response.statusCode.Some? && response.data.Some? ==>
      && (response.statusCode.value == NotConnectedToInternet <==> r.error == NoNet)
      && (response.statusCode.value == 401 <==> r.error == Unauthorized)
      && (response.statusCode.value !in {NotConnectedToInternet, 401} <==> r.error.Unknown? && r.error.data == response.data)
  {
    match response.result
    case Success(_) => Success(())
    case Failure(error) => Failure(ClassifyFailure(error, response.statusCode, response.data, decode))
  }

  /** The two overloads classify a failure identically: what differs between
      them is only the type of the success payload. */
  lemma OverloadsClassifyAlike(withBody: DataResponse<Bytes>, optionalBody: DataResponse<Option<Bytes>>,
                               decode: Bytes -> DecodeOutcome)
    requires withBody.result.Failure? && optionalBody.result.Failure?
    requires withBody.result.error == optionalBody.result.error
    requires withBody.statusCode == optionalBody.statusCode && withBody.data == optionalBody.data
    ensures ProcessResponse(withBody, decode).Failure? && ProcessResponseVoid(optionalBody, decode).Failure?
    ensures ProcessResponse(withBody, decode).error == ProcessResponseVoid(optionalBody, decode).error
  {
  }

  /** Neither overload ever surfaces a decoded server message: whatever the
      error body decodes to, the failure is `noNet`, `unauthorized` or
      `unknown`. */
  lemma ServerMessageNeverSurfaces(response: DataResponse<Bytes>, decode: Bytes -> DecodeOutcome)
    requires response.result.Failure?
    ensures var e := ProcessResponse(response, decode).error;
      e == NoNet || e == Unauthorized || e.Unknown?
  {
  }
}

=== FILE: wrappers.dfy ===
/** Optional values and success-or-error results, standing in for Swift's
    `Optional` and `Result`. */
module Wrappers {

  /** Swift's `T?`: either nothing or a value. */
  datatype Option<+T> = None | Some(value: T)

  /** Swift's `Result<T, Error>`. */
  datatype Result<+T, +E> = Success(value: T) | Failure(error: E)
}
